=== FILE: README.md ===
# Path tracer camera core, modelled in Dafny

This project models the discrete and real-arithmetic core of a Monte-Carlo
path tracer: the camera's derived state, ray generation, the recursive
radiance integrator `rayColor`, the per-pixel averaging of samples, the
sequential scan-line render loop with its frame buffers, the quantisation of
colours to bytes in `writeColor`, and the numeric utilities (angle
conversion, unit random draws). Doubles are modelled as mathematical reals.

Modules, one per source component:

- `Numeric` (numeric.dfy) — `pi`, `degreesToRadians`, `randomDouble()`,
  `randomDouble(min, max)`, and the C++ truncating conversion `int(x)`.
- `Vectors` (vectors.dfy) — vectors, colours and rays with their usual
  component-wise operations.
- `Intervals` (intervals.dfy) — intervals with possibly infinite bounds and
  their `clamp`.
- `Colors` (colors.dfy) — `writeColor`: clamping, byte quantisation, and the
  emitted text line, with a parser proving the line format unambiguous.
- `Camera` (camera.dfy) — `initialize`, `sampleSquare`, `defocusDiskSample`,
  `getRay`, `rayColor` (recursive, and as an equivalent accumulator loop),
  and `calPixelColor`.
- `Render` (render.dfy) — frame-buffer layout, the scan order and the
  sequential `render` loop.
- `Wrappers` (wrappers.dfy) — the `Option` type.

Code the model cannot see enters as parameters: the scene's `hit`, the
materials' `scatter`, vector normalisation `unitVector`, `std::tan` (bundled
in `Camera.Oracles`, with `scatter` per sample), and every random draw
(`rand()` results and the `randomInUnitDisk` point, bundled in
`Camera.SampleDraw`). The scatter oracle receives the remaining depth of the
bounce, so one function describes the random choices along a whole path.
`RAND_MAX` is left to the C library; the model picks 2147483647 (glibc's
value), and no property depends on that choice beyond its being positive.

The image height is `int(width / aspectRatio)`, truncated toward zero, and
`rayColor` queries the scene over `interval(0, infinity)` with no
self-intersection margin (`Camera.HitRange`).

## Model

| member | source | states |
|---|---|---|
| `Numeric.PiIsPositive` | src/raytracer/rtweekend.h:14 | pi is a positive constant between 3 and 4 |
| `Numeric.DegreesToRadians` | src/raytracer/rtweekend.h:16-19 | the radian value times 180 equals the degree value times pi |
| `Numeric.DegreesToRadiansLandmarks` | src/raytracer/rtweekend.h:16-19 | 0 degrees is 0, 180 degrees is pi, 90 degrees is pi/2 |
| `Numeric.DegreesToRadiansLinear` | src/raytracer/rtweekend.h:18 | the conversion preserves sums and scalar multiples |
| `Numeric.DegreesToRadiansMonotone` | src/raytracer/rtweekend.h:18 | the conversion is strictly monotone and injective |
| `Numeric.RandomDouble` | src/raytracer/rtweekend.h:21-24 | a draw in [0, RAND_MAX] maps to [0, 1), to 0 exactly for draw 0, and the draw is recovered by multiplying by RAND_MAX + 1 |
| `Numeric.RandomDoubleStrictlyMonotone` | src/raytracer/rtweekend.h:23 | distinct draws give distinct values in the same order |
| `Numeric.RandomDoubleIn` | src/raytracer/rtweekend.h:25-28 | for min < max the value lies in [min, max) and equals min exactly when the draw is 0; reversed bounds give (max, min]; equal bounds give min |
| `Numeric.StretchBounds` | src/raytracer/rtweekend.h:27 | the affine stretch of a unit value onto the range between min and max stays in that half-open range and leaves min only for a positive unit value |
| `Numeric.TruncateToInt` | src/raytracer/color.h:23 | the C++ conversion to int truncates toward zero: the result is within one of the value, on its side of zero |
| `Intervals.InfinityExceedsFinite` | src/raytracer/rtweekend.h:13 | the infinite bound exceeds every finite bound |
| `Intervals.Interval.Clamp` | src/raytracer/color.h:23-25 | a value below a finite minimum becomes the minimum, above a finite maximum the maximum, a value inside is unchanged, and the result of clamping into a non-empty interval lies in it |
| `Intervals.ClampIdempotent` | src/raytracer/color.h:22-25 | clamping into a non-empty interval twice equals clamping once |
| `Intervals.ClampMonotone` | src/raytracer/color.h:22-25 | clamping preserves order |
| `Colors.QuantizeChannel` | src/raytracer/color.h:22-25 | each byte lies in [0, 255]; a channel at or below 0 gives 0; at or above 0.999 gives 255; in between the byte is the integer part of 256 times the channel |
| `Colors.QuantizeMonotone` | src/raytracer/color.h:23-25 | a larger channel never yields a smaller byte |
| `Colors.QuantizeAfterClamp` | src/raytracer/color.h:22-25 | quantising an already clamped channel gives the same byte as quantising the original |
| `Colors.ColorBytes` | src/raytracer/color.h:18-25 | all three bytes of a colour lie in [0, 255] |
| `Colors.ChannelsIndependent` | src/raytracer/color.h:18-25 | the red byte depends only on the red component, likewise green and blue |
| `Colors.Decimal` | src/raytracer/color.h:27 | an integer is written as a non-empty string of decimal digits |
| `Colors.DecimalRoundTrip` | src/raytracer/color.h:27 | reading back the decimal text of a number gives the number |
| `Colors.WriteColor` | src/raytracer/color.h:27 | the emitted line is non-empty and ends in a newline |
| `Colors.ParseThreeNumbers` | src/raytracer/color.h:27 | three digit strings joined by single spaces and a newline read back as exactly their three values |
| `Colors.WriteColorRoundTrip` | src/raytracer/color.h:16-28 | the line is red, space, green, space, blue, newline: parsing it recovers exactly the three bytes |
| `Camera.DefaultCamera` | src/raytracer/camera.h:17-28 | with the field initialisers the camera renders a 100 by 100 image from the origin and weights each of its 10 samples by one tenth |
| `Camera.ImageHeight` | src/raytracer/camera.h:90-91 | the height is at least 1; when width/aspect is at least 1 it is its integer part; below 2 it is 1 |
| `Camera.Initialize` | src/raytracer/camera.h:88-124 | for a positive width, the derived height is `ImageHeight` of the width and aspect ratio and at least 1, the sample scale times the sample count is 1, the centre is lookFrom, and v is the cross product of w and u |
| `Camera.PixelGrid` | src/raytracer/camera.h:115-119 | the pixel steps times the pixel counts give back the viewport vectors |
| `Camera.PixelGridCentred` | src/raytracer/camera.h:112-119 | the corner of pixel (0, 0) is the viewport's upper-left corner, and the middle of the pixel grid lies one focus distance in front of the camera centre |
| `Camera.SampleSquare` | src/raytracer/camera.h:136-139 | the offset lies in [-0.5, 0.5) in x and y with zero z, at -0.5 exactly for a zero draw |
| `Camera.DefocusDiskSample` | src/raytracer/camera.h:141-145 | the disk's centre point, and every point of a zero-radius disk, is the camera centre |
| `Camera.GetRay` | src/raytracer/camera.h:126-134 | the origin is the camera centre when the defocus angle is at most 0, a defocus-disk point otherwise; origin plus direction is a point of pixel (x, y)'s own footprint, within half a pixel of its centre in each direction (the box filter of the jitter) |
| `Camera.HitRangeSurroundsPositive` | src/raytracer/camera.h:154 | the queried interval admits every positive distance and has no margin above 0 |
| `Camera.BlendFactor` | src/raytracer/camera.h:166 | a unit y in [-1, 1] gives a blend factor in [0, 1], and y is recovered as 2a - 1 |
| `Camera.Sky` | src/raytracer/camera.h:165-167 | y = -1 gives white, y = 1 gives (0.5, 0.7, 1.0), and in between each channel lies between those endpoints |
| `Camera.RayColor` | src/raytracer/camera.h:147-168 | black when the depth is at most 0 whatever the scene; black when the hit material absorbs; the sky gradient on a miss |
| `Camera.ScatterCalls` | src/raytracer/camera.h:149-162 | one evaluation calls scatter at most depth times, and not at all when the depth is spent or the ray misses |
| `Camera.RayColorInUnitCube` | src/raytracer/camera.h:147-168 | with attenuations in the unit cube the result is in the unit cube: the recursion never creates energy |
| `Camera.RayColorIterative` | src/raytracer/camera.h:147-168 | a loop carrying the product of the attenuations computes exactly the recursive result |
| `Camera.DebugColor` | src/raytracer/camera.h:180 | with width and height at least 2, in-range pixels get channels in [0, 1], and the channels times width-1 and height-1 give back x and y; a width or height of 1 gives a non-finite channel |
| `Camera.CalPixelColor` | src/raytracer/camera.h:170-181 | the pixel is the sample scale times the sum of one integrator result per sample, and the debug colour is the pixel's normalised coordinates |
| `Camera.SumConstant` | src/raytracer/camera.h:172-177 | summing n copies of a colour gives n times that colour |
| `Camera.PixelOfConstantSamples` | src/raytracer/camera.h:172-178 | with scale 1/samplesPerPixel, if every sample returns colour c the pixel equals c |
| `Camera.PixelInUnitCube` | src/raytracer/camera.h:172-178 | the average of unit-cube samples is in the unit cube |
| `Camera.RenderedPixelInUnitCube` | src/raytracer/camera.h:170-178 | with attenuations in the unit cube, every main-output pixel lies in the unit cube |
| `Render.WriterOffset` | src/raytracer/color.h:36 | (with `Render.WriterOffsetDecodes`) the image writer reads pixel (x, y) at x + y*width |
| `Render.WriterOffsetDecodes` | src/raytracer/color.h:36 | the writer's offset of an in-row pixel gives back the row as quotient and the column as remainder by the width, so no two pixels share an offset |
| `Render.SequentialDims` | src/raytracer/camera.h:61-62 | the allocation as written: a write a[i][j] is in bounds exactly when i is a column and j a row of the image, so every write frame[y][x] is in bounds for a square image and some pixel's write is out of bounds for every other non-empty image |
| `Render.FrameDims` | src/raytracer/camera.h:37-38 | the (height, width) allocation: frame[y][x] is in bounds exactly for the pixels of the image and lands at the writer's offset |
| `Render.FrameLayoutMatchesWriter` | src/raytracer/camera.h:37-46 | under the (height, width) allocation every write frame[y][x] is in bounds, lands where the image writer reads pixel (x, y), and no two pixels share a cell |
| `Render.SequentialLayoutInBoundsIffSquare` | src/raytracer/camera.h:61-71 | under the (width, height) allocation every write is in bounds exactly when the image is square |
| `Render.SequentialLayoutCounterexample` | src/raytracer/camera.h:61-69 | in a 3 by 2 image pixel (2, 0) is written past its row into the cell of pixel (0, 1) |
| `Render.SetCell` | src/raytracer/camera.h:179 | a write changes exactly the one in-bounds cell and keeps the dimensions |
| `Render.ScanOrderVisitsEachPixelOnce` | src/raytracer/camera.h:64-71 | the scan visits exactly the width times height pixels of the image, in strictly increasing row-major order |
| `Render.ScanOrderHasNoRepeats` | src/raytracer/camera.h:64-71 | no pixel is visited twice |
| `Render.RenderRow` | src/raytracer/camera.h:67-70 | every pixel of row y gets its averaged and debug colour, left to right, and the other rows are untouched |
| `Render.Render` | src/raytracer/camera.h:57-76 | (corrected layout) the buffers have height rows of width cells; every pixel holds its averaged colour and debug colour; calPixelColor is called once per pixel in row-major order |

## Findings

| source | as written | input that shows it | evidently intended | confidence | as-written member | corrected member |
|---|---|---|---|---|---|---|
| src/raytracer/camera.h:61-62 | the sequential `render` allocates both buffers as `Array2D(imagePlaneWidth, imagePlaneHeight)`, i.e. width rows of height cells, yet writes `frame[y][x]` | width 3, height 2: pixel (2, 0) indexes cell 2 of a 2-cell row, the cell of pixel (0, 1); a non-square image always indexes outside the allocation's row or column bounds: a wide image's column index runs past its row and overwrites other pixels' cells, a tall image's row index runs past the last row and past the end of the buffer | the `(imagePlaneHeight, imagePlaneWidth)` allocation of `parallelRender`, which matches both the writes and the image writer's row stride | high (not executed) | `Render.SequentialLayoutCounterexample` | `Render.Render`, `Render.FrameLayoutMatchesWriter` |

`Render.SequentialDims` is the allocation as written and
`Render.SequentialLayoutInBoundsIffSquare` shows it is safe only for square
images; `Render.Render` allocates with `Render.FrameDims` and its writes go
through `Render.SetCell`, whose precondition is the bounds check.

## Left out

- The parallel render (`parallelRender`, TBB fan-out and its unsynchronised `finishedRows` counter): concurrency. Its buffer layout is modelled as `Render.FrameDims`.
- Writing the buffers to OpenEXR files and swallowing write exceptions, and the file names: file I/O through an unseen library.
- Progress and diagnostic logging to `std::clog` and `std::cout`: output only.
- The conversion of channels to `half` (float rounding) and the alpha channels: the main buffer's alpha is set to 0 at camera.h:179 and the debug buffer's gets `Imf::Rgba`'s default of 1 at camera.h:180; neither is modelled, since no other part of the core reads them.
- The unused local buffers allocated inside `initialize`: they have no effect for a positive width (a negative one is excluded, see `Camera.Initialize` below).
- The sphere, hittable list, material, vec3, ray and interval headers are not part of this model: `hit`, `scatter`, `unitVector` and `randomInUnitDisk` are oracles; `clamp`, `contains` and `surrounds` take their usual definitions.
- `std::tan`, the basis derivation through `unitVector` and `cross`, and the viewport size from the field of view are computed from oracle values; no property of the tangent is assumed, and the only property of normalisation used is the hypothesis of the two unit-cube lemmas (`Camera.RayColorInUnitCube`, `Camera.RenderedPixelInUnitCube`) that normalised vectors have y in [-1, 1].
- `std::rand` itself: draws are parameters, each required to lie in [0, RAND_MAX].
- `Camera.ImageHeight`: the source's height is a 32-bit `int`; a quotient `imagePlaneWidth / aspectRatio` of 2^31 or more makes `int(...)` undefined, while the model returns its integer part, because integers here are unbounded and the undefined conversion has no value to model.
- Floating-point rounding, NaN and infinities: reals are exact. The debug channels' division by zero for a one-pixel-wide or one-pixel-high image is modelled as a missing (None) value.
- `Camera.Initialize`: requires a non-zero aspect ratio and sample count and a positive width. A zero divisor makes an infinite or undefined value that reals cannot represent. A negative width makes the allocation `Array2D(imagePlaneWidth, imagePlaneHeight)` at camera.h:92 request a negative count, which throws an exception nothing catches, so `initialize` never returns.
- `Render.Render`: requires a positive width, because a zero width divides by zero in `initialize` and a negative one cannot be allocated.
- The application's user interface, configuration globals and demo scene: outside the camera core.

=== FILE: camera.dfy ===
/** The camera of the renderer (src/raytracer/camera.h): the derived state
    computed by `initialize`, ray generation (`getRay`, `sampleSquare`,
    `defocusDiskSample`), the recursive integrator `rayColor`, and the
    per-pixel averaging of `calPixelColor`.

    The scene's `hit`, the materials' `scatter`, vec3's `unitVector`,
    `std::tan` and `randomInUnitDisk` are not part of this model: they enter
    as oracles, and every random draw enters as a parameter. */
module Camera {

  import opened Wrappers
  import opened Vectors
  import opened Intervals
  import Numeric

  // ---------------------------------------------------------------------
  // Configuration and derived state

  /** The public fields of the camera class. */
  datatype Config = Config(
    aspectRatio: real,
    imagePlaneWidth: int,
    samplesPerPixel: int,
    maxDepth: int,
    viewFov: real,
    lookFrom: Vec3,
    lookAt: Vec3,
    vUp: Vec3,
    defocusAngle: real,
    focusDist: real)

  /** The field initialisers of the camera class. */
  const DefaultConfig: Config := Config(1.0, 100, 10, 10, 90.0, Zero, Vec3(0.0, 0.0, -1.0),
                                        Vec3(0.0, 1.0, 0.0), 0.0, 10.0)

  /** The default camera renders a square image of 100 by 100 pixels from
      the origin, weighting each of its 10 samples by one tenth. */
  lemma DefaultCamera(o: Oracles)
    ensures Initialize(DefaultConfig, o).imagePlaneHeight == 100
    ensures Initialize(DefaultConfig, o).pixelSampleScale == 0.1
    ensures Initialize(DefaultConfig, o).center == Zero
  {
    DefaultHeight();
    assert Initialize(DefaultConfig, o).pixelSampleScale * 10.0 == 1.0;
  }

  lemma DefaultHeight()
    ensures ImageHeight(100, 1.0) == 100
  {
    assert 100 as real / 1.0 == 100.0;
  }

  /** The configuration together with the private state `initialize` derives. */
  datatype Camera = Camera(
    cfg: Config,
    imagePlaneHeight: int,
    pixelSampleScale: real,
    center: Vec3,
    pixel00: Vec3,
    pixelDeltaU: Vec3,
    pixelDeltaV: Vec3,
    u: Vec3,
    v: Vec3,
    w: Vec3,
    defocusDiskU: Vec3,
    defocusDiskV: Vec3)

  /** A surface intersection as reported by the scene; `material` names the
      material of the hit primitive. */
  datatype HitRecord = HitRecord(p: Vec3, normal: Vec3, t: real, frontFace: bool, material: nat)

  /** The outcome of a successful scatter: the colour attenuation and the
      continuing ray. */
  datatype Scattered = Scattered(attenuation: Color, ray: Ray)

  /** The scene's `hit(ray, interval)`. */
  type HitFn = (Ray, Interval) -> Option<HitRecord>

  /** The hit material's `scatter` along one path: None means the ray is
      absorbed. The third argument is the remaining depth at the bounce, so
      that one function captures the random draws of a whole path. */
  type ScatterFn = (Ray, HitRecord, int) -> Option<Scattered>

  /** The deterministic code this model cannot see: the scene's hit test,
      vector normalisation and the tangent. */
  datatype Oracles = Oracles(hit: HitFn, unitVector: Normalizer, tan: real -> real)

  /** `int(imagePlaneWidth / aspectRatio)`, raised to at least 1. The
      conversion of a non-finite quotient is undefined in C++, hence the
      requirement of a non-zero aspect ratio. */
  function ImageHeight(width: int, aspectRatio: real): (h: int)
    requires aspectRatio != 0.0
    ensures h >= 1
    ensures width as real / aspectRatio >= 1.0 ==>
              h as real <= width as real / aspectRatio < h as real + 1.0
    ensures width as real / aspectRatio < 2.0 ==> h == 1
  {
    var truncated := Numeric.TruncateToInt(width as real / aspectRatio);
    if truncated < 1 then 1 else truncated
  }

  /** `initialize`: derives the image height, the sample weight, the camera
      basis, the pixel grid and the defocus disk from the configuration.
      A zero width or sample count would divide by zero, and a negative
      width makes the buffer allocation of `initialize` fail. */
  function Initialize(cfg: Config, o: Oracles): (cam: Camera)
    requires cfg.aspectRatio != 0.0 && 1 <= cfg.imagePlaneWidth && cfg.samplesPerPixel != 0
    ensures cam.cfg == cfg
    ensures cam.imagePlaneHeight == ImageHeight(cfg.imagePlaneWidth, cfg.aspectRatio) >= 1
    ensures cam.pixelSampleScale * (cfg.samplesPerPixel as real) == 1.0
    ensures cam.center == cfg.lookFrom
    ensures cam.v == Cross(cam.w, cam.u)
  {
    var height := ImageHeight(cfg.imagePlaneWidth, cfg.aspectRatio);
    var theta := Numeric.DegreesToRadians(cfg.viewFov);
    var h := o.tan(theta / 2.0);
    var viewportHeight := 2.0 * h * cfg.focusDist;
    var viewportWidth := viewportHeight * (cfg.imagePlaneWidth as real / height as real);
    var w := o.unitVector(Sub(cfg.lookFrom, cfg.lookAt));
    var u := o.unitVector(Cross(cfg.vUp, w));
    var v := Cross(w, u);
    var viewportU := Scale(viewportWidth, u);
    var viewportV := Scale(viewportHeight, Neg(v));
    var grid := PixelGrid(cfg.lookFrom, cfg.focusDist, w, viewportU, viewportV,
                          cfg.imagePlaneWidth as real, height as real);
    var defocusRadius := cfg.focusDist * o.tan(Numeric.DegreesToRadians(cfg.defocusAngle / 2.0));
    ReciprocalScale(cfg.samplesPerPixel as real);
    Camera(cfg, height, 1.0 / cfg.samplesPerPixel as real, cfg.lookFrom, grid.pixel00, grid.deltaU, grid.deltaV,
           u, v, w, Scale(defocusRadius, u), Scale(defocusRadius, v))
  }

  /** The pixel grid: the centre of pixel (0, 0) and the steps to the next
      pixel across and down. */
  datatype Grid = Grid(pixel00: Vec3, deltaU: Vec3, deltaV: Vec3) {

    /** The point at fractional pixel coordinates (s, t); integer
        coordinates are pixel centres. */
    function PointAt(s: real, t: real): Vec3 {
      Add(Add(pixel00, Scale(s, deltaU)), Scale(t, deltaV))
    }
  }

  /** The upper-left corner of the viewport, one focus distance in front of
      the camera centre. */
  function ViewportUpperLeft(center: Vec3, focusDist: real, w: Vec3, viewportU: Vec3, viewportV: Vec3): Vec3 {
    Sub(Sub(Sub(center, Scale(focusDist, w)), Scale(0.5, viewportU)), Scale(0.5, viewportV))
  }

  /** Splits the viewport into width by height pixels; pixel (0, 0) is
      centred half a step from the upper-left corner. */
  function PixelGrid(center: Vec3, focusDist: real, w: Vec3, viewportU: Vec3, viewportV: Vec3,
                     width: real, height: real): (g: Grid)
    requires width != 0.0 && height != 0.0
    ensures Scale(width, g.deltaU) == viewportU && Scale(height, g.deltaV) == viewportV
  {
    var deltaU := Scale(1.0 / width, viewportU);
    var deltaV := Scale(1.0 / height, viewportV);
    ScaleBack(width, viewportU);
    ScaleBack(height, viewportV);
    Grid(Add(ViewportUpperLeft(center, focusDist, w, viewportU, viewportV), Scale(0.5, Add(deltaU, deltaV))),
         deltaU, deltaV)
  }

  /** The grid tiles the viewport exactly and is centred on the viewing
      axis: the corner of pixel (0, 0) is the viewport's upper-left corner,
      and the point midway between the first and last pixel centres lies one
      focus distance in front of the camera. */
  lemma PixelGridCentred(center: Vec3, focusDist: real, w: Vec3, viewportU: Vec3, viewportV: Vec3,
                         width: real, height: real)
    requires width != 0.0 && height != 0.0
    ensures var g := PixelGrid(center, focusDist, w, viewportU, viewportV, width, height);
      && g.PointAt(-0.5, -0.5) == ViewportUpperLeft(center, focusDist, w, viewportU, viewportV)
      && g.PointAt((width - 1.0) / 2.0, (height - 1.0) / 2.0) == Sub(center, Scale(focusDist, w))
  {
    var c := Sub(center, Scale(focusDist, w));
    HalfSpan(width, viewportU.x, height, viewportV.x, c.x);
    HalfSpan(width, viewportU.y, height, viewportV.y, c.y);
    HalfSpan(width, viewportU.z, height, viewportV.z, c.z);
  }

  /** Scalar core of the centring argument, one component at a time. */
  lemma HalfSpan(nu: real, a: real, nv: real, b: real, c: real)
    requires nu != 0.0 && nv != 0.0
    ensures var p := c - 0.5 * a - 0.5 * b + 0.5 * ((1.0 / nu) * a + (1.0 / nv) * b);
      && p - 0.5 * ((1.0 / nu) * a) - 0.5 * ((1.0 / nv) * b) == c - 0.5 * a - 0.5 * b
      && p + ((nu - 1.0) / 2.0) * ((1.0 / nu) * a) + ((nv - 1.0) / 2.0) * ((1.0 / nv) * b) == c
  {
    assert nu * ((1.0 / nu) * a) == a;
    assert nv * ((1.0 / nv) * b) == b;
  }

  lemma ScaleBack(n: real, d: Vec3)
    requires n != 0.0
    ensures Scale(n, Scale(1.0 / n, d)) == d
  {
  }

  lemma ReciprocalScale(n: real)
    requires n != 0.0
    ensures (1.0 / n) * n == 1.0
  {
  }

  // ---------------------------------------------------------------------
  // Ray generation

  /** The camera's pixel grid. */
  function GridOf(cam: Camera): Grid {
    Grid(cam.pixel00, cam.pixelDeltaU, cam.pixelDeltaV)
  }

  /** The random inputs of one sample: two `rand()` draws for the square
      offset, the point `randomInUnitDisk` returned, and the path's scatter
      behaviour. */
  datatype SampleDraw = SampleDraw(dx: int, dy: int, disk: Vec3, scatter: ScatterFn)

  predicate ValidSample(s: SampleDraw) {
    Numeric.ValidDraw(s.dx) && Numeric.ValidDraw(s.dy)
  }

  /** `sampleSquare`: a random offset in the unit square around the origin. */
  function SampleSquare(dx: int, dy: int): (offset: Vec3)
    requires Numeric.ValidDraw(dx) && Numeric.ValidDraw(dy)
    ensures -0.5 <= offset.x < 0.5 && -0.5 <= offset.y < 0.5 && offset.z == 0.0
    ensures offset.x == -0.5 <==> dx == 0
    ensures offset.y == -0.5 <==> dy == 0
  {
    Vec3(Numeric.RandomDouble(dx) - 0.5, Numeric.RandomDouble(dy) - 0.5, 0.0)
  }

  /** `defocusDiskSample`: the camera centre displaced within the defocus
      disk by the disk point p. The disk's centre, and any point of a disk of
      radius zero, is the camera centre itself. */
  function DefocusDiskSample(cam: Camera, p: Vec3): (origin: Vec3)
    ensures p.x == 0.0 && p.y == 0.0 ==> origin == cam.center
    ensures cam.defocusDiskU == Zero && cam.defocusDiskV == Zero ==> origin == cam.center
  {
    Add(Add(cam.center, Scale(p.x, cam.defocusDiskU)), Scale(p.y, cam.defocusDiskV))
  }

  /** `getRay(x, y)`: a ray from the camera (or a point of its defocus disk)
      through a random point of pixel (x, y). */
  function GetRay(cam: Camera, x: int, y: int, s: SampleDraw): (r: Ray)
    requires ValidSample(s)
    ensures cam.cfg.defocusAngle <= 0.0 ==> r.origin == cam.center
    ensures cam.cfg.defocusAngle > 0.0 ==> r.origin == DefocusDiskSample(cam, s.disk)
    ensures r.At(1.0) == GridOf(cam).PointAt(x as real + SampleSquare(s.dx, s.dy).x,
                                              y as real + SampleSquare(s.dx, s.dy).y)
    ensures exists fx, fy :: x as real - 0.5 <= fx < x as real + 0.5
                             && y as real - 0.5 <= fy < y as real + 0.5
                             && r.At(1.0) == GridOf(cam).PointAt(fx, fy)
  {
    var offset := SampleSquare(s.dx, s.dy);
    var pixelSample := GridOf(cam).PointAt(x as real + offset.x, y as real + offset.y);
    var origin := if cam.cfg.defocusAngle <= 0.0 then cam.center else DefocusDiskSample(cam, s.disk);
    Ray(origin, Sub(pixelSample, origin))
  }

  // ---------------------------------------------------------------------
  // The integrator

  /** The interval `rayColor` queries the scene with: from 0, with no
      self-intersection margin, up to infinity. */
  const HitRange: Interval := Interval(Finite(0.0), PosInf)

  /** Every positive distance is inside the queried interval; zero and
      negative distances are not. */
  lemma HitRangeSurroundsPositive(t: real)
    ensures HitRange.Surrounds(t) <==> 0.0 < t
    ensures HitRange.Contains(t) <==> 0.0 <= t
  {
  }

  const SkyBlue: Color := Vec3(0.5, 0.7, 1.0)

  /** The blend factor `a = 0.5 * (y + 1)` of the sky gradient. */
  function BlendFactor(unitY: real): (a: real)
    ensures -1.0 <= unitY <= 1.0 ==> 0.0 <= a <= 1.0
    ensures unitY == 2.0 * a - 1.0
  {
    0.5 * (unitY + 1.0)
  }

  /** The background: white blended toward sky blue by the y component of the
      unit ray direction. */
  function Sky(unitY: real): (c: Color)
    ensures unitY == -1.0 ==> c == White
    ensures unitY == 1.0 ==> c == SkyBlue
    ensures -1.0 <= unitY <= 1.0 ==>
              SkyBlue.x <= c.x <= White.x && SkyBlue.y <= c.y <= White.y && c.z == 1.0
  {
    var a := BlendFactor(unitY);
    var c := Add(Scale(1.0 - a, White), Scale(a, SkyBlue));
    assert c.x == 1.0 - 0.5 * a && c.y == 1.0 - 0.3 * a && c.z == 1.0;
    c
  }

  /** `rayColor(r, maxDepth, world)`: black once the depth budget is spent;
      on a hit, the attenuation times the colour of the scattered ray (black
      if the material absorbs); on a miss, the sky. */
  function RayColor(r: Ray, depth: int, o: Oracles, scatter: ScatterFn): (c: Color)
    ensures depth <= 0 ==> c == Black
    ensures (depth > 0 && o.hit(r, HitRange).Some? && scatter(r, o.hit(r, HitRange).value, depth).None?)
              ==> c == Black
    ensures depth > 0 && o.hit(r, HitRange).None? ==> c == Sky(o.unitVector(r.direction).y)
    decreases depth
  {
    if depth <= 0 then Black
    else
      match o.hit(r, HitRange)
      case None => Sky(o.unitVector(r.direction).y)
      case Some(rec) =>
        match scatter(r, rec, depth)
        case None => Black
        case Some(s) => Mul(s.attenuation, RayColor(s.ray, depth - 1, o, scatter))
  }

  /** The number of `scatter` calls one `rayColor` evaluation makes: never
      more than the depth budget, and none when the budget is spent or the
      ray misses. */
  function ScatterCalls(r: Ray, depth: int, o: Oracles, scatter: ScatterFn): (n: nat)
    ensures n <= if depth > 0 then depth else 0
    ensures n == 0 <==> depth <= 0 || o.hit(r, HitRange).None?
    decreases depth
  {
    if depth <= 0 then 0
    else
      match o.hit(r, HitRange)
      case None => 0
      case Some(rec) =>
        match scatter(r, rec, depth)
        case None => 1
        case Some(s) => 1 + ScatterCalls(s.ray, depth - 1, o, scatter)
  }

  /** Every attenuation the materials produce lies in the unit cube. */
  ghost predicate AttenuationsBounded(scatter: ScatterFn) {
    forall r, rec, d :: scatter(r, rec, d).Some? ==> InUnitCube(scatter(r, rec, d).value.attenuation)
  }

  /** Normalised vectors have a y component in [-1, 1]. */
  ghost predicate UnitYBounded(unitVector: Normalizer) {
    forall d :: -1.0 <= unitVector(d).y <= 1.0
  }

  /** Energy is never created: with attenuations in the unit cube, every
      colour the integrator returns is in the unit cube too. */
  lemma {:induction false} RayColorInUnitCube(r: Ray, depth: int, o: Oracles, scatter: ScatterFn)
    requires AttenuationsBounded(scatter) && UnitYBounded(o.unitVector)
    ensures InUnitCube(RayColor(r, depth, o, scatter))
    decreases depth
  {
    if depth > 0 {
      match o.hit(r, HitRange)
      case None =>
        assert -1.0 <= o.unitVector(r.direction).y <= 1.0;
      case Some(rec) =>
        match scatter(r, rec, depth)
        case None =>
        case Some(s) =>
          RayColorInUnitCube(s.ray, depth - 1, o, scatter);
          MulInUnitCube(s.attenuation, RayColor(s.ray, depth - 1, o, scatter));
    }
  }

  /** The integrator as a loop that carries the product of the attenuations
      met so far; it computes exactly what the recursion computes. */
  method RayColorIterative(r: Ray, depth: int, o: Oracles, scatter: ScatterFn) returns (c: Color)
    ensures c == RayColor(r, depth, o, scatter)
  {
    var ray, d, throughput := r, depth, White;
    while d > 0
      invariant Mul(throughput, RayColor(ray, d, o, scatter)) == RayColor(r, depth, o, scatter)
      decreases d
    {
      match o.hit(ray, HitRange)
      case None =>
        assert RayColor(ray, d, o, scatter) == Sky(o.unitVector(ray.direction).y);
        return Mul(throughput, Sky(o.unitVector(ray.direction).y));
      case Some(rec) =>
        match scatter(ray, rec, d)
        case None =>
          assert RayColor(ray, d, o, scatter) == Black;
          return Black;
        case Some(s) =>
          assert RayColor(ray, d, o, scatter) == Mul(s.attenuation, RayColor(s.ray, d - 1, o, scatter));
          MulAssociative(throughput, s.attenuation, RayColor(s.ray, d - 1, o, scatter));
          throughput, ray, d := Mul(throughput, s.attenuation), s.ray, d - 1;
    }
    assert RayColor(ray, d, o, scatter) == Black;
    c := Black;
  }

  // ---------------------------------------------------------------------
  // Per-pixel averaging

  /** The number of samples `calPixelColor` takes: its loop runs
      `samplesPerPixel` times, and not at all for a negative count. */
  function SampleCount(cfg: Config): nat {
    if cfg.samplesPerPixel > 0 then cfg.samplesPerPixel else 0
  }

  predicate AllValid(samples: seq<SampleDraw>) {
    forall i :: 0 <= i < |samples| ==> ValidSample(samples[i])
  }

  /** One draw per sample of the pixel, each a possible `rand()` result. */
  predicate ValidSamples(cfg: Config, samples: seq<SampleDraw>) {
    |samples| == SampleCount(cfg) && AllValid(samples)
  }

  /** The colour one sample contributes. */
  function SampleColor(cam: Camera, o: Oracles, x: int, y: int, s: SampleDraw): Color
    requires ValidSample(s)
  {
    RayColor(GetRay(cam, x, y, s), cam.cfg.maxDepth, o, s.scatter)
  }

  /** The colours of the samples, in sample order. */
  function SampleColors(cam: Camera, o: Oracles, x: int, y: int, samples: seq<SampleDraw>): (cs: seq<Color>)
    requires AllValid(samples)
    ensures |cs| == |samples|
  {
    seq(|samples|, i requires 0 <= i < |samples| => SampleColor(cam, o, x, y, samples[i]))
  }

  /** The sum of a sequence of colours, accumulated front to back. */
  function SumColors(cs: seq<Color>): Color
    decreases |cs|
  {
    if |cs| == 0 then Zero else Add(SumColors(cs[..|cs| - 1]), cs[|cs| - 1])
  }

  /** The averaged pixel value: `pixelSampleScale` times the sum of the
      sample colours. */
  function PixelColor(cam: Camera, o: Oracles, x: int, y: int, samples: seq<SampleDraw>): Color
    requires AllValid(samples)
  {
    Scale(cam.pixelSampleScale, SumColors(SampleColors(cam, o, x, y, samples)))
  }

  /** The debug colour of a pixel, its coordinates normalised by
      `width - 1` and `height - 1`. A one-pixel-wide or one-pixel-high image
      divides by zero and gives a non-finite channel, modelled as None. */
  function DebugColor(x: int, y: int, width: int, height: int): (r: Option<Color>)
    ensures r.None? <==> width == 1 || height == 1
    ensures 2 <= width && 2 <= height && 0 <= x < width && 0 <= y < height ==>
              r.Some? && InUnitCube(r.value)
    ensures r.Some? ==> (r.value.x * (width as real - 1.0) == x as real
                         && r.value.y * (height as real - 1.0) == y as real
                         && r.value.z == 0.0)
  {
    if width == 1 || height == 1 then None
    else
      var c := Vec3(x as real / (width as real - 1.0), y as real / (height as real - 1.0), 0.0);
      UnitRatio(x as real, width as real - 1.0);
      UnitRatio(y as real, height as real - 1.0);
      Some(c)
  }

  lemma UnitRatio(p: real, q: real)
    requires q != 0.0
    ensures (p / q) * q == p
    ensures 0.0 <= p <= q ==> 0.0 <= p / q <= 1.0
  {
  }

  /** `calPixelColor(x, y)`: accumulates one integrator result per sample,
      scales the sum by `pixelSampleScale`, and computes the debug colour. */
  method CalPixelColor(cam: Camera, o: Oracles, x: int, y: int, samples: seq<SampleDraw>)
    returns (pixel: Color, debug: Option<Color>)
    requires ValidSamples(cam.cfg, samples)
    ensures pixel == PixelColor(cam, o, x, y, samples)
    ensures debug == DebugColor(x, y, cam.cfg.imagePlaneWidth, cam.imagePlaneHeight)
  {
    var sum := Zero;
    var sampleId := 0;
    while sampleId < cam.cfg.samplesPerPixel
      invariant 0 <= sampleId <= |samples|
      invariant sum == SumColors(SampleColors(cam, o, x, y, samples)[..sampleId])
    {
      var r := GetRay(cam, x, y, samples[sampleId]);
      var c := RayColorIterative(r, cam.cfg.maxDepth, o, samples[sampleId].scatter);
      assert SampleColors(cam, o, x, y, samples)[..sampleId + 1][..sampleId]
          == SampleColors(cam, o, x, y, samples)[..sampleId];
      sum := Add(sum, c);
      sampleId := sampleId + 1;
    }
    assert SampleColors(cam, o, x, y, samples)[..sampleId] == SampleColors(cam, o, x, y, samples);
    pixel := Scale(cam.pixelSampleScale, sum);
    debug := DebugColor(x, y, cam.cfg.imagePlaneWidth, cam.imagePlaneHeight);
  }

  /** Summing n copies of one colour gives n times that colour. */
  lemma {:induction false} SumConstant(cs: seq<Color>, c: Color)
    requires forall i :: 0 <= i < |cs| ==> cs[i] == c
    ensures SumColors(cs) == Scale(|cs| as real, c)
    decreases |cs|
  {
    if |cs| > 0 {
      SumConstant(cs[..|cs| - 1], c);
    }
  }

  /** Averaging is exact on constant input: if every sample yields colour c,
      the pixel is c. */
  lemma PixelOfConstantSamples(cam: Camera, o: Oracles, x: int, y: int, samples: seq<SampleDraw>, c: Color)
    requires cam.cfg.samplesPerPixel >= 1
    requires cam.pixelSampleScale * (cam.cfg.samplesPerPixel as real) == 1.0
    requires ValidSamples(cam.cfg, samples)
    requires forall i :: 0 <= i < |samples| ==> SampleColor(cam, o, x, y, samples[i]) == c
    ensures PixelColor(cam, o, x, y, samples) == c
  {
    var cs := SampleColors(cam, o, x, y, samples);
    assert forall i :: 0 <= i < |cs| ==> cs[i] == c;
    AverageOfConstant(cam.pixelSampleScale, cs, c);
  }

  lemma AverageOfConstant(k: real, cs: seq<Color>, c: Color)
    requires k * (|cs| as real) == 1.0
    requires forall i :: 0 <= i < |cs| ==> cs[i] == c
    ensures Scale(k, SumColors(cs)) == c
  {
    SumConstant(cs, c);
    var n := |cs| as real;
    assert k * (n * c.x) == (k * n) * c.x;
    assert k * (n * c.y) == (k * n) * c.y;
    assert k * (n * c.z) == (k * n) * c.z;
  }

  /** Channel bounds of a sum of unit-cube colours. */
  lemma {:induction false} SumBounded(cs: seq<Color>)
    requires forall i :: 0 <= i < |cs| ==> InUnitCube(cs[i])
    ensures var s := SumColors(cs); var n := |cs| as real;
      0.0 <= s.x <= n && 0.0 <= s.y <= n && 0.0 <= s.z <= n
    decreases |cs|
  {
    if |cs| > 0 {
      SumBounded(cs[..|cs| - 1]);
    }
  }

  /** The average of unit-cube samples is in the unit cube. */
  lemma PixelInUnitCube(cam: Camera, o: Oracles, x: int, y: int, samples: seq<SampleDraw>)
    requires cam.cfg.samplesPerPixel >= 1
    requires cam.pixelSampleScale * (cam.cfg.samplesPerPixel as real) == 1.0
    requires ValidSamples(cam.cfg, samples)
    requires forall i :: 0 <= i < |samples| ==> InUnitCube(SampleColor(cam, o, x, y, samples[i]))
    ensures InUnitCube(PixelColor(cam, o, x, y, samples))
  {
    var cs := SampleColors(cam, o, x, y, samples);
    assert forall i :: 0 <= i < |cs| ==> InUnitCube(cs[i]);
    AverageInUnitCube(cam.pixelSampleScale, cs);
  }

  lemma AverageInUnitCube(k: real, cs: seq<Color>)
    requires 0 < |cs| && k * (|cs| as real) == 1.0
    requires forall i :: 0 <= i < |cs| ==> InUnitCube(cs[i])
    ensures InUnitCube(Scale(k, SumColors(cs)))
  {
    SumBounded(cs);
    var s := SumColors(cs);
    var n := |cs| as real;
    AverageBound(k, n, s.x);
    AverageBound(k, n, s.y);
    AverageBound(k, n, s.z);
  }

  lemma AverageBound(k: real, n: real, s: real)
    requires k * n == 1.0 && 0.0 < n && 0.0 <= s <= n
    ensures 0.0 <= k * s <= 1.0
  {
    assert 0.0 < k;
    Numeric.ProductNonNegative(k, s);
    Numeric.ProductNonNegative(k, n - s);
  }

  /** With attenuations in the unit cube and unit directions, every pixel of
      the main output lies in the unit cube. */
  lemma RenderedPixelInUnitCube(cam: Camera, o: Oracles, x: int, y: int, samples: seq<SampleDraw>)
    requires cam.cfg.samplesPerPixel >= 1
    requires cam.pixelSampleScale * (cam.cfg.samplesPerPixel as real) == 1.0
    requires ValidSamples(cam.cfg, samples)
    requires UnitYBounded(o.unitVector)
    requires forall i :: 0 <= i < |samples| ==> AttenuationsBounded(samples[i].scatter)
    ensures InUnitCube(PixelColor(cam, o, x, y, samples))
  {
    forall i | 0 <= i < |samples|
      ensures InUnitCube(SampleColor(cam, o, x, y, samples[i]))
    {
      RayColorInUnitCube(GetRay(cam, x, y, samples[i]), cam.cfg.maxDepth, o, samples[i].scatter);
    }
    PixelInUnitCube(cam, o, x, y, samples);
  }
}

=== FILE: colors.dfy ===
/** Colour output (src/raytracer/color.h): `writeColor` clamps each channel
    of a colour to [0, 0.999], truncates 256 times the clamped value to an
    integer byte and writes the three bytes as one text line. */
module Colors {

  import opened Wrappers
  import opened Vectors
  import opened Intervals
  import Numeric

  /** The static `intensity` interval of `writeColor`. */
  const Intensity: Interval := Interval(Finite(0.0), Finite(0.999))

  /** The byte one channel is written as: `int(256 * intensity.clamp(c))`. */
  function QuantizeChannel(c: real): (b: int)
    ensures 0 <= b <= 255
    ensures c <= 0.0 ==> b == 0
    ensures c >= 0.999 ==> b == 255
    ensures 0.0 <= c <= 0.999 ==> b as real <= 256.0 * c < b as real + 1.0
  {
    Numeric.TruncateToInt(256.0 * Intensity.Clamp(c))
  }

  /** A larger channel value never yields a smaller byte. */
  lemma QuantizeMonotone(a: real, b: real)
    requires a <= b
    ensures QuantizeChannel(a) <= QuantizeChannel(b)
  {
    ClampMonotone(Intensity, a, b);
    Numeric.TruncateToIntMonotone(256.0 * Intensity.Clamp(a), 256.0 * Intensity.Clamp(b));
  }

  /** Quantising a value already clamped to the intensity range gives the
      same byte as quantising the original value. */
  lemma QuantizeAfterClamp(c: real)
    ensures QuantizeChannel(Intensity.Clamp(c)) == QuantizeChannel(c)
  {
    ClampIdempotent(Intensity, c);
  }

  /** The red, green and blue bytes of a colour. */
  datatype Bytes = Bytes(red: int, green: int, blue: int)

  function ColorBytes(pixel: Color): (b: Bytes)
    ensures 0 <= b.red <= 255 && 0 <= b.green <= 255 && 0 <= b.blue <= 255
  {
    Bytes(QuantizeChannel(pixel.x), QuantizeChannel(pixel.y), QuantizeChannel(pixel.z))
  }

  /** Channels are independent: each byte depends on its own component only. */
  lemma ChannelsIndependent(p: Color, q: Color)
    ensures p.x == q.x ==> ColorBytes(p).red == ColorBytes(q).red
    ensures p.y == q.y ==> ColorBytes(p).green == ColorBytes(q).green
    ensures p.z == q.z ==> ColorBytes(p).blue == ColorBytes(q).blue
  {
  }

  // Decimal text of a non-negative integer, as `operator<<` writes it.

  predicate IsDigit(ch: char) {
    '0' <= ch <= '9'
  }

  predicate AllDigits(s: string) {
    forall k :: 0 <= k < |s| ==> IsDigit(s[k])
  }

  function DigitChar(d: int): (ch: char)
    requires 0 <= d <= 9
    ensures IsDigit(ch)
  {
    ['0', '1', '2', '3', '4', '5', '6', '7', '8', '9'][d]
  }

  function DigitValue(ch: char): (d: int)
    requires IsDigit(ch)
    ensures 0 <= d <= 9
  {
    ch as int - '0' as int
  }

  lemma DigitValueOfChar(d: int)
    requires 0 <= d <= 9
    ensures DigitValue(DigitChar(d)) == d
  {
  }

  /** Decimal digits of n, most significant first, without leading zeros. */
  function Decimal(n: nat): (s: string)
    ensures 0 < |s|
    ensures AllDigits(s)
    ensures n > 0 ==> s[0] != '0'
    ensures 1 < |s| ==> s[0] != '0'
    decreases n
  {
    if n < 10 then [DigitChar(n)] else Decimal(n / 10) + [DigitChar(n % 10)]
  }

  /** The number a string of decimal digits denotes. */
  function DecimalValue(s: string): nat
    requires AllDigits(s)
    decreases |s|
  {
    if |s| == 0 then 0
    else 10 * DecimalValue(s[..|s| - 1]) + DigitValue(s[|s| - 1])
  }

  /** Reading back the decimal text of a number gives the number. */
  lemma {:induction false} DecimalRoundTrip(n: nat)
    ensures DecimalValue(Decimal(n)) == n
    decreases n
  {
    var s := Decimal(n);
    if n < 10 {
      DigitValueOfChar(n);
      assert s[..0] == [];
    } else {
      DecimalRoundTrip(n / 10);
      DigitValueOfChar(n % 10);
      assert s[..|s| - 1] == Decimal(n / 10);
    }
  }

  /** The text line `writeColor` emits: red, space, green, space, blue, newline. */
  function WriteColor(pixel: Color): (line: string)
    ensures 0 < |line| && line[|line| - 1] == '\n'
  {
    var b := ColorBytes(pixel);
    Decimal(b.red as nat) + " " + Decimal(b.green as nat) + " " + Decimal(b.blue as nat) + "\n"
  }

  /** The first position of ch in s, if any. */
  function IndexOf(s: string, ch: char): (r: Option<nat>)
    ensures r.Some? ==> r.value < |s| && s[r.value] == ch
    ensures r.Some? ==> forall i :: 0 <= i < r.value ==> s[i] != ch
    ensures r.None? <==> ch !in s
    decreases |s|
  {
    if |s| == 0 then None
    else if s[0] == ch then Some(0)
    else match IndexOf(s[1..], ch)
      case None => None
      case Some(k) => Some(k + 1)
  }

  /** A non-empty digit string as a number. */
  function ParseDecimal(s: string): Option<nat> {
    if 0 < |s| && AllDigits(s) then Some(DecimalValue(s)) else None
  }

  /** Reads a line in the format `writeColor` emits back into its three bytes;
      None when the line is not three decimal numbers separated by single
      spaces and ended by a newline. */
  function ParseColorLine(line: string): Option<Bytes> {
    if |line| == 0 || line[|line| - 1] != '\n' then None
    else
      var body := line[..|line| - 1];
      match IndexOf(body, ' ')
      case None => None
      case Some(i) =>
        var rest := body[i + 1..];
        match IndexOf(rest, ' ')
        case None => None
        case Some(j) =>
          match (ParseDecimal(body[..i]), ParseDecimal(rest[..j]), ParseDecimal(rest[j + 1..]))
          case (Some(r), Some(g), Some(b)) => Some(Bytes(r, g, b))
          case _ => None
  }

  /** The first space of a digit string followed by a space is right after the digits. */
  lemma IndexOfAfterDigits(d: string, tail: string)
    requires AllDigits(d)
    ensures IndexOf(d + " " + tail, ' ') == Some(|d|)
  {
    var s := d + " " + tail;
    assert s[|d|] == ' ';
    assert s[..|d|] == d;
    assert ' ' !in d by {
      forall k | 0 <= k < |d| ensures d[k] != ' ' {
        assert IsDigit(d[k]);
      }
    }
    IndexOfFirst(s, ' ', |d|);
  }

  /** If position k holds ch and no earlier position does, IndexOf finds k. */
  lemma {:induction false} IndexOfFirst(s: string, ch: char, k: nat)
    requires k < |s| && s[k] == ch && ch !in s[..k]
    ensures IndexOf(s, ch) == Some(k)
    decreases |s|
  {
    if k > 0 {
      assert s[0] != ch by { assert s[0] == s[..k][0]; }
      var t := s[1..];
      forall m | 0 <= m < k - 1
        ensures t[m] != ch
      {
        assert t[m] == s[..k][m + 1];
      }
      assert ch !in t[..k - 1];
      IndexOfFirst(t, ch, k - 1);
    }
  }

  /** A line of three non-empty digit strings separated by single spaces
      and ended by a newline parses to their three values. */
  lemma ParseThreeNumbers(dr: string, dg: string, db: string)
    requires 0 < |dr| && AllDigits(dr)
    requires 0 < |dg| && AllDigits(dg)
    requires 0 < |db| && AllDigits(db)
    ensures ParseColorLine(dr + " " + (dg + " " + db) + "\n")
            == Some(Bytes(DecimalValue(dr), DecimalValue(dg), DecimalValue(db)))
  {
    var body := dr + " " + (dg + " " + db);
    var line := body + "\n";
    assert line[..|line| - 1] == body;
    IndexOfAfterDigits(dr, dg + " " + db);
    var rest := body[|dr| + 1..];
    assert rest == dg + " " + db;
    IndexOfAfterDigits(dg, db);
    assert body[..|dr|] == dr;
    assert rest[..|dg|] == dg;
    assert rest[|dg| + 1..] == db;
  }

  /** Parsing the line `writeColor` emits recovers the three bytes: the
      output format loses nothing and is unambiguous. */
  lemma WriteColorRoundTrip(pixel: Color)
    ensures ParseColorLine(WriteColor(pixel)) == Some(ColorBytes(pixel))
  {
    var b := ColorBytes(pixel);
    var dr, dg, db := Decimal(b.red as nat), Decimal(b.green as nat), Decimal(b.blue as nat);
    assert WriteColor(pixel) == dr + " " + (dg + " " + db) + "\n";
    ParseThreeNumbers(dr, dg, db);
    DecimalRoundTrip(b.red as nat);
    DecimalRoundTrip(b.green as nat);
    DecimalRoundTrip(b.blue as nat);
  }
}

=== FILE: intervals.dfy ===
/** Real intervals with possibly infinite bounds. The interval header of the
    renderer is not part of this model; `clamp`, `contains` and `surrounds`
    are given their usual definitions. The double `infinity` of the source
    becomes an explicit infinite bound. */
module Intervals {

  /** A real number extended with the two infinities. */
  datatype ExtReal = NegInf | Finite(value: real) | PosInf

  predicate LessEq(a: ExtReal, b: ExtReal) {
    match (a, b)
    case (NegInf, _) => true
    case (_, PosInf) => true
    case (Finite(p), Finite(q)) => p <= q
    case _ => false
  }

  predicate Less(a: ExtReal, b: ExtReal) {
    LessEq(a, b) && a != b
  }

  /** The closed interval [min, max]. */
  datatype Interval = Interval(min: ExtReal, max: ExtReal) {

    /** Some real number lies in the interval. */
    predicate IsNonEmpty() {
      min != PosInf && max != NegInf && LessEq(min, max)
    }

    predicate Contains(t: real) {
      LessEq(min, Finite(t)) && LessEq(Finite(t), max)
    }

    predicate Surrounds(t: real) {
      Less(min, Finite(t)) && Less(Finite(t), max)
    }

    /** Moves t to the nearest point of the interval: below min gives min,
        above max gives max, otherwise t is unchanged. */
    function Clamp(t: real): (c: real)
      ensures IsNonEmpty() ==> Contains(c)
      ensures Contains(t) ==> c == t
      ensures min.Finite? && t < min.value ==> c == min.value
      ensures max.Finite? && t > max.value && IsNonEmpty() ==> c == max.value
    {
      if min.Finite? && t < min.value then min.value
      else if max.Finite? && t > max.value then max.value
      else t
    }
  }

  /** Infinity exceeds every finite bound, and every finite bound exceeds
      minus infinity. */
  lemma InfinityExceedsFinite(t: real)
    ensures Less(Finite(t), PosInf)
    ensures Less(NegInf, Finite(t))
  {
  }

  /** Clamping a value into a non-empty interval and clamping again changes nothing. */
  lemma ClampIdempotent(i: Interval, t: real)
    requires i.IsNonEmpty()
    ensures i.Clamp(i.Clamp(t)) == i.Clamp(t)
  {
  }

  /** Clamping preserves order. */
  lemma ClampMonotone(i: Interval, s: real, t: real)
    requires i.IsNonEmpty() && s <= t
    ensures i.Clamp(s) <= i.Clamp(t)
  {
  }
}

=== FILE: numeric.dfy ===
/** Numeric utilities of the renderer (src/raytracer/rtweekend.h): the constant
    pi, the angle conversion, and the mapping of an integer `rand()` draw to a
    real number. Doubles are modelled as mathematical reals. */
module Numeric {

  /** The literal the source assigns to `pi` (rounded to a double there). */
  const Pi: real := 3.1415926535897932385

  /** `RAND_MAX` of the C library, which the C standard leaves to the
      implementation. The value here is chosen (it is glibc's); no property
      below depends on it beyond its being positive. */
  const RandMax: int := 2147483647

  /** A value `std::rand()` can return. */
  predicate ValidDraw(draw: int) {
    0 <= draw <= RandMax
  }

  /** Pi is a positive constant, strictly between 3 and 4. */
  lemma PiIsPositive()
    ensures 3.0 < Pi < 4.0
  {
  }

  /** `degreesToRadians`: scales an angle in degrees by pi/180. */
  function DegreesToRadians(degrees: real): (radians: real)
    ensures radians * 180.0 == degrees * Pi
  {
    degrees * Pi / 180.0
  }

  /** The zero angle and the straight angle convert to 0 and pi. */
  lemma DegreesToRadiansLandmarks()
    ensures DegreesToRadians(0.0) == 0.0
    ensures DegreesToRadians(180.0) == Pi
    ensures DegreesToRadians(90.0) == Pi / 2.0
  {
  }

  /** The conversion is linear: it preserves sums and scalar multiples. */
  lemma DegreesToRadiansLinear(a: real, b: real, k: real)
    ensures DegreesToRadians(a + b) == DegreesToRadians(a) + DegreesToRadians(b)
    ensures DegreesToRadians(k * a) == k * DegreesToRadians(a)
  {
  }

  /** The conversion is strictly monotone, hence order-preserving both ways. */
  lemma DegreesToRadiansMonotone(a: real, b: real)
    ensures a < b <==> DegreesToRadians(a) < DegreesToRadians(b)
    ensures a == b <==> DegreesToRadians(a) == DegreesToRadians(b)
  {
  }

  /** `randomDouble()`: a draw of `std::rand()` divided by `RAND_MAX + 1`. */
  function RandomDouble(draw: int): (u: real)
    requires ValidDraw(draw)
    ensures 0.0 <= u < 1.0
    ensures u == 0.0 <==> draw == 0
    ensures u * (RandMax as real + 1.0) == draw as real
  {
    draw as real / (RandMax as real + 1.0)
  }

  /** Distinct draws give distinct values, in the same order. */
  lemma RandomDoubleStrictlyMonotone(d1: int, d2: int)
    requires ValidDraw(d1) && ValidDraw(d2)
    ensures d1 < d2 <==> RandomDouble(d1) < RandomDouble(d2)
  {
    var n := RandMax as real + 1.0;
    assert RandomDouble(d1) * n == d1 as real;
    assert RandomDouble(d2) * n == d2 as real;
    if RandomDouble(d1) < RandomDouble(d2) {
      ScaleStrict(RandomDouble(d2), RandomDouble(d1), n);
    } else {
      ScaleMonotone(RandomDouble(d2), RandomDouble(d1), n);
    }
  }

  /** `randomDouble(min, max)`: the unit draw stretched onto [min, max). */
  function RandomDoubleIn(min: real, max: real, draw: int): (x: real)
    requires ValidDraw(draw)
    ensures min < max ==> min <= x < max
    ensures max < min ==> max < x <= min
    ensures min == max ==> x == min
    ensures min != max ==> (x == min <==> draw == 0)
  {
    StretchBounds(min, max, RandomDouble(draw));
    min + Times(max - min, RandomDouble(draw))
  }

  /** The product of two reals. Products whose factors are themselves sums
      are written through this function, so that the solver relates them as
      terms rather than as polynomials. */
  function Times(a: real, b: real): real {
    a * b
  }

  /** The affine stretch of a unit value u in [0, 1) onto the range from lo
      to hi stays in the half-open range and leaves lo only when u > 0. */
  lemma StretchBounds(lo: real, hi: real, u: real)
    requires 0.0 <= u < 1.0
    ensures lo < hi ==> lo <= lo + Times(hi - lo, u) < hi
    ensures hi < lo ==> hi < lo + Times(hi - lo, u) <= lo
    ensures lo != hi ==> (lo + Times(hi - lo, u) == lo <==> u == 0.0)
    ensures lo == hi ==> lo + Times(hi - lo, u) == lo
  {
    if lo < hi {
      TimesBelow(hi - lo, u);
    } else if hi < lo {
      TimesBelow(lo - hi, u);
      TimesNegate(lo - hi, u);
      assert -(lo - hi) == hi - lo;
    }
    if lo != hi {
      TimesZero(hi - lo, u);
    } else {
      TimesOfZero(hi - lo, u);
    }
  }

  lemma TimesBelow(d: real, u: real)
    requires 0.0 < d && 0.0 <= u < 1.0
    ensures 0.0 <= Times(d, u) < d
  {
  }

  lemma TimesNegate(d: real, u: real)
    ensures Times(-d, u) == -Times(d, u)
  {
  }

  lemma TimesOfZero(d: real, u: real)
    requires d == 0.0
    ensures Times(d, u) == 0.0
  {
  }

  lemma TimesZero(d: real, u: real)
    requires d != 0.0
    ensures Times(d, u) == 0.0 <==> u == 0.0
  {
  }

  lemma ProductNonNegative(a: real, b: real)
    requires 0.0 <= a && 0.0 <= b
    ensures 0.0 <= a * b
  {
  }

  lemma ScaleMonotone(a: real, b: real, k: real)
    requires a <= b && 0.0 <= k
    ensures a * k <= b * k && k * a <= k * b
  {
  }

  lemma ScaleStrict(a: real, b: real, k: real)
    requires b < a && 0.0 < k
    ensures b * k < a * k && k * b < k * a
  {
  }

  /** The C++ conversion `int(x)` of a double: truncation toward zero. */
  function TruncateToInt(x: real): (n: int)
    ensures 0.0 <= x ==> n as real <= x < n as real + 1.0
    ensures x < 0.0 ==> n as real - 1.0 < x <= n as real
  {
    if 0.0 <= x then x.Floor else -((-x).Floor)
  }

  /** Truncation never moves a value away from zero and is monotone. */
  lemma TruncateToIntMonotone(a: real, b: real)
    requires a <= b
    ensures TruncateToInt(a) <= TruncateToInt(b)
  {
  }
}

=== FILE: render.dfy ===
/** The whole-image render of the camera (src/raytracer/camera.h): the frame
    buffers, their memory layout, and the sequential scan-line loop of
    `render` that computes every pixel once, row after row. */
module Render {

  import opened Wrappers
  import opened Vectors
  import opened Camera

  datatype Pixel = Pixel(x: int, y: int)

  predicate InImage(p: Pixel, width: int, height: int) {
    0 <= p.x < width && 0 <= p.y < height
  }

  // ---------------------------------------------------------------------
  // Frame-buffer layout

  /** The arguments of an `Imf::Array2D<T>(sizeX, sizeY)` allocation: sizeX
      rows of sizeY cells, stored row after row, so that `a[i][j]` is cell
      `i * sizeY + j` and needs `i < sizeX` and `j < sizeY`. */
  datatype Dims = Dims(sizeX: int, sizeY: int)

  predicate CellInBounds(d: Dims, i: int, j: int) {
    0 <= i < d.sizeX && 0 <= j < d.sizeY
  }

  function CellOffset(d: Dims, i: int, j: int): int {
    i * d.sizeY + j
  }

  /** Where the image writer reads pixel (x, y): the buffer is handed over
      with an x stride of 1 and a y stride of `width`. */
  function WriterOffset(width: int, x: int, y: int): int {
    x + y * width
  }

  /** The writer's offsets are unambiguous: the offset of an in-row pixel
      gives back its row as the quotient and its column as the remainder. */
  lemma WriterOffsetDecodes(width: int, x: int, y: int)
    requires 0 <= x < width && 0 <= y
    ensures WriterOffset(width, x, y) / width == y
    ensures WriterOffset(width, x, y) % width == x
  {
    var r := WriterOffset(width, x, y);
    var q, m := r / width, r % width;
    assert q * width + m == r && 0 <= m < width;
    if q > y {
      MulMonotone(y + 1, q, width);
    } else if q < y {
      MulMonotone(q + 1, y, width);
    }
  }

  lemma MulMonotone(a: int, b: int, c: int)
    requires a <= b && 0 <= c
    ensures a * c <= b * c
  {
    assert 0 <= (b - a) * c;
    assert b * c - a * c == (b - a) * c;
  }

  /** The allocation of the sequential `render`: `(imagePlaneWidth,
      imagePlaneHeight)`, as written. A write `a[i][j]` is in bounds exactly
      when i is a column and j a row of the image, so the writes
      `frame[y][x]` all fit a square image and miss the bounds of every
      other one. */
  function SequentialDims(width: int, height: int): (d: Dims)
    ensures forall i, j :: CellInBounds(d, i, j) <==> 0 <= i < width && 0 <= j < height
    ensures width == height ==>
              forall x, y :: InImage(Pixel(x, y), width, height) ==> CellInBounds(d, y, x)
    ensures 1 <= width && 1 <= height && width != height ==>
              exists x, y :: InImage(Pixel(x, y), width, height) && !CellInBounds(d, y, x)
  {
    var d := Dims(width, height);
    assert 1 <= height < width ==>
      InImage(Pixel(width - 1, 0), width, height) && !CellInBounds(d, 0, width - 1);
    assert 1 <= width < height ==>
      InImage(Pixel(0, height - 1), width, height) && !CellInBounds(d, height - 1, 0);
    d
  }

  /** The allocation of `parallelRender`: `(imagePlaneHeight,
      imagePlaneWidth)`. The write `frame[y][x]` is in bounds exactly when
      (x, y) is a pixel of the image, and lands at the writer's offset. */
  function FrameDims(width: int, height: int): (d: Dims)
    ensures forall x, y :: CellInBounds(d, y, x) <==> InImage(Pixel(x, y), width, height)
    ensures forall x, y :: CellOffset(d, y, x) == WriterOffset(width, x, y)
  {
    Dims(height, width)
  }

  /** Under the (height, width) layout every pixel's write `frame[y][x]` is
      in bounds, lands where the writer reads that pixel, and no two pixels
      share a cell. */
  lemma FrameLayoutMatchesWriter(width: int, height: int)
    ensures forall x, y :: 0 <= x < width && 0 <= y < height ==>
      CellInBounds(FrameDims(width, height), y, x)
      && CellOffset(FrameDims(width, height), y, x) == WriterOffset(width, x, y)
    ensures forall p, q :: InImage(p, width, height) && InImage(q, width, height) && p != q ==>
      CellOffset(FrameDims(width, height), p.y, p.x) != CellOffset(FrameDims(width, height), q.y, q.x)
  {
    forall p, q | InImage(p, width, height) && InImage(q, width, height) && p != q
      ensures CellOffset(FrameDims(width, height), p.y, p.x) != CellOffset(FrameDims(width, height), q.y, q.x)
    {
      if p.y == q.y {
      } else if p.y < q.y {
        RowOffsetsOrdered(width, p.x, p.y, q.x, q.y);
      } else {
        RowOffsetsOrdered(width, q.x, q.y, p.x, p.y);
      }
    }
  }

  /** A cell of an earlier row comes before every cell of a later row. */
  lemma RowOffsetsOrdered(width: int, x1: int, y1: int, x2: int, y2: int)
    requires 0 <= x1 < width && 0 <= x2 < width && 0 <= y1 < y2
    ensures y1 * width + x1 < y2 * width + x2
  {
    MulMonotone(y1 + 1, y2, width);
    assert (y1 + 1) * width == y1 * width + width;
  }

  /** The sequential layout keeps every write in bounds exactly when the
      image is square. */
  lemma SequentialLayoutInBoundsIffSquare(width: int, height: int)
    requires 1 <= width && 1 <= height
    ensures (forall x, y :: 0 <= x < width && 0 <= y < height ==>
               CellInBounds(SequentialDims(width, height), y, x))
            <==> width == height
  {
    if width > height {
      assert !CellInBounds(SequentialDims(width, height), 0, width - 1);
    } else if width < height {
      assert !CellInBounds(SequentialDims(width, height), height - 1, 0);
    }
  }

  /** A 3 by 2 image under the sequential layout: pixel (2, 0) is written past
      the end of its row, into the cell of pixel (0, 1), and pixel (0, 1) is
      not where the writer reads it. */
  lemma SequentialLayoutCounterexample()
    ensures !CellInBounds(SequentialDims(3, 2), 0, 2)
    ensures CellOffset(SequentialDims(3, 2), 0, 2) == CellOffset(SequentialDims(3, 2), 1, 0)
    ensures CellOffset(SequentialDims(3, 2), 1, 0) != WriterOffset(3, 0, 1)
  {
  }

  /** A buffer of the given dimensions, every cell holding `fill`. */
  function NewFrame<T>(d: Dims, fill: T): (f: seq<seq<T>>)
    requires 0 <= d.sizeX && 0 <= d.sizeY
    ensures |f| == d.sizeX
    ensures forall i :: 0 <= i < |f| ==> |f[i]| == d.sizeY
  {
    seq(d.sizeX, _ => seq(d.sizeY, _ => fill))
  }

  /** The write `frame[i][j] = value`; only an in-bounds cell can be written. */
  function SetCell<T>(frame: seq<seq<T>>, i: int, j: int, value: T): (f: seq<seq<T>>)
    requires 0 <= i < |frame| && 0 <= j < |frame[i]|
    ensures |f| == |frame|
    ensures forall k :: 0 <= k < |f| ==> |f[k]| == |frame[k]|
    ensures f[i][j] == value
    ensures forall l :: 0 <= l < |f[i]| && l != j ==> f[i][l] == frame[i][l]
    ensures forall k :: 0 <= k < |f| && k != i ==> f[k] == frame[k]
  {
    frame[i := frame[i][j := value]]
  }

  // ---------------------------------------------------------------------
  // Scan order

  /** Row y of the image, left to right. */
  function Row(width: nat, y: int): (r: seq<Pixel>)
    ensures |r| == width
    ensures forall k :: 0 <= k < width ==> r[k] == Pixel(k, y)
  {
    seq(width, k => Pixel(k, y))
  }

  /** The pixels of the first `height` rows, top to bottom, each row left to right. */
  function ScanOrder(width: nat, height: nat): seq<Pixel>
    decreases height
  {
    if height == 0 then [] else ScanOrder(width, height - 1) + Row(width, height - 1)
  }

  /** p comes strictly before q in row-major order. */
  predicate RowMajorBefore(p: Pixel, q: Pixel) {
    p.y < q.y || (p.y == q.y && p.x < q.x)
  }

  /** The scan visits exactly the pixels of the image, in strictly increasing
      row-major order, so each pixel exactly once. */
  lemma {:induction false} ScanOrderVisitsEachPixelOnce(width: nat, height: nat)
    ensures |ScanOrder(width, height)| == width * height
    ensures forall p :: p in ScanOrder(width, height) <==> InImage(p, width, height)
    ensures forall i, j :: 0 <= i < j < |ScanOrder(width, height)| ==>
              RowMajorBefore(ScanOrder(width, height)[i], ScanOrder(width, height)[j])
    decreases height
  {
    if height > 0 {
      ScanOrderVisitsEachPixelOnce(width, height - 1);
      var before, row := ScanOrder(width, height - 1), Row(width, height - 1);
      var s := before + row;
      assert s == ScanOrder(width, height);
      assert |s| == width * (height - 1) + width;
      forall p
        ensures p in s <==> InImage(p, width, height)
      {
        if InImage(p, width, height) && p.y == height - 1 {
          assert row[p.x] == p;
        }
      }
      forall i, j | 0 <= i < j < |s|
        ensures RowMajorBefore(s[i], s[j])
      {
        if j < |before| {
        } else if i < |before| {
          assert before[i] in before;
        } else {
          assert s[i] == row[i - |before|] && s[j] == row[j - |before|];
        }
      }
    }
  }

  /** No pixel appears twice in the scan. */
  lemma ScanOrderHasNoRepeats(width: nat, height: nat)
    ensures forall i, j :: 0 <= i < j < |ScanOrder(width, height)| ==>
              ScanOrder(width, height)[i] != ScanOrder(width, height)[j]
  {
    ScanOrderVisitsEachPixelOnce(width, height);
  }

  // ---------------------------------------------------------------------
  // The render loop

  /** The random draws of every pixel's samples are possible `rand()` results,
      one set per sample. */
  ghost predicate ValidDraws(cfg: Config, draws: (int, int) -> seq<SampleDraw>) {
    forall x, y :: ValidSamples(cfg, draws(x, y))
  }

  /** The buffer has `rows` rows of `cols` cells each. */
  predicate HasShape<T>(frame: seq<seq<T>>, rows: int, cols: int) {
    |frame| == rows && forall i :: 0 <= i < |frame| ==> |frame[i]| == cols
  }

  /** Pixel (x, y) holds its averaged colour and its debug colour. */
  ghost predicate PixelDone(cam: Camera, o: Oracles, draws: (int, int) -> seq<SampleDraw>,
                            frame: seq<seq<Color>>, debugFrame: seq<seq<Option<Color>>>, x: int, y: int)
  {
    && 0 <= y < |frame| && 0 <= x < |frame[y]| && y < |debugFrame| && x < |debugFrame[y]|
    && AllValid(draws(x, y))
    && frame[y][x] == PixelColor(cam, o, x, y, draws(x, y))
    && debugFrame[y][x] == DebugColor(x, y, cam.cfg.imagePlaneWidth, cam.imagePlaneHeight)
  }

  /** The inner loop of `render`: `calPixelColor` for every pixel of row y,
      left to right; the other rows are left untouched. */
  method RenderRow(cam: Camera, o: Oracles, draws: (int, int) -> seq<SampleDraw>,
                   frame: seq<seq<Color>>, debugFrame: seq<seq<Option<Color>>>, y: int)
    returns (frame': seq<seq<Color>>, debugFrame': seq<seq<Option<Color>>>, rowVisits: seq<Pixel>)
    requires 0 <= cam.cfg.imagePlaneWidth && 0 <= y < cam.imagePlaneHeight
    requires HasShape(frame, cam.imagePlaneHeight, cam.cfg.imagePlaneWidth)
    requires HasShape(debugFrame, cam.imagePlaneHeight, cam.cfg.imagePlaneWidth)
    requires forall x :: ValidSamples(cam.cfg, draws(x, y))
    ensures HasShape(frame', cam.imagePlaneHeight, cam.cfg.imagePlaneWidth)
    ensures HasShape(debugFrame', cam.imagePlaneHeight, cam.cfg.imagePlaneWidth)
    ensures forall x :: 0 <= x < cam.cfg.imagePlaneWidth ==> PixelDone(cam, o, draws, frame', debugFrame', x, y)
    ensures forall i :: 0 <= i < |frame| && i != y ==> frame'[i] == frame[i] && debugFrame'[i] == debugFrame[i]
    ensures rowVisits == Row(cam.cfg.imagePlaneWidth, y)
  {
    var width := cam.cfg.imagePlaneWidth;
    frame', debugFrame', rowVisits := frame, debugFrame, [];
    var x := 0;
    while x < width
      invariant 0 <= x <= width
      invariant HasShape(frame', cam.imagePlaneHeight, width)
      invariant HasShape(debugFrame', cam.imagePlaneHeight, width)
      invariant forall j :: 0 <= j < x ==> PixelDone(cam, o, draws, frame', debugFrame', j, y)
      invariant forall i :: 0 <= i < |frame| && i != y ==> frame'[i] == frame[i] && debugFrame'[i] == debugFrame[i]
      invariant rowVisits == Row(width, y)[..x]
    {
      var pixel, debug := CalPixelColor(cam, o, x, y, draws(x, y));
      ghost var before, debugBefore := frame', debugFrame';
      frame' := SetCell(frame', y, x, pixel);
      debugFrame' := SetCell(debugFrame', y, x, debug);
      forall j | 0 <= j < x + 1
        ensures PixelDone(cam, o, draws, frame', debugFrame', j, y)
      {
        if j < x {
          assert PixelDone(cam, o, draws, before, debugBefore, j, y);
        }
      }
      assert Row(width, y)[..x + 1] == Row(width, y)[..x] + [Pixel(x, y)];
      rowVisits := rowVisits + [Pixel(x, y)];
      x := x + 1;
    }
    assert Row(width, y)[..x] == Row(width, y);
  }

  /** `render`: initialises the camera, allocates the main and debug buffers,
      and calls `calPixelColor` once for every pixel, row by row, each row
      left to right. The buffers use the (height, width) layout. The image
      width must be positive: zero divides by zero in `initialize` and a
      negative size cannot be allocated. */
  method Render(cfg: Config, o: Oracles, draws: (int, int) -> seq<SampleDraw>)
    returns (cam: Camera, frame: seq<seq<Color>>, debugFrame: seq<seq<Option<Color>>>, visits: seq<Pixel>)
    requires cfg.aspectRatio != 0.0 && 1 <= cfg.imagePlaneWidth && cfg.samplesPerPixel != 0
    requires ValidDraws(cfg, draws)
    ensures cam == Initialize(cfg, o)
    ensures HasShape(frame, cam.imagePlaneHeight, cfg.imagePlaneWidth)
    ensures HasShape(debugFrame, cam.imagePlaneHeight, cfg.imagePlaneWidth)
    ensures forall x, y :: 0 <= x < cfg.imagePlaneWidth && 0 <= y < cam.imagePlaneHeight ==>
              frame[y][x] == PixelColor(cam, o, x, y, draws(x, y))
              && debugFrame[y][x] == DebugColor(x, y, cfg.imagePlaneWidth, cam.imagePlaneHeight)
    ensures visits == ScanOrder(cfg.imagePlaneWidth, cam.imagePlaneHeight)
  {
    cam := Initialize(cfg, o);
    var width, height := cfg.imagePlaneWidth, cam.imagePlaneHeight;
    frame := NewFrame(FrameDims(width, height), Black);
    debugFrame := NewFrame(FrameDims(width, height), None);
    visits := [];
    var y := 0;
    while y < height
      invariant 0 <= y <= height
      invariant HasShape(frame, height, width) && HasShape(debugFrame, height, width)
      invariant forall i, j :: 0 <= i < y && 0 <= j < width ==> PixelDone(cam, o, draws, frame, debugFrame, j, i)
      invariant visits == ScanOrder(width, y)
    {
      var rowVisits;
      ghost var before, debugBefore := frame, debugFrame;
      frame, debugFrame, rowVisits := RenderRow(cam, o, draws, frame, debugFrame, y);
      forall i, j | 0 <= i < y + 1 && 0 <= j < width
        ensures PixelDone(cam, o, draws, frame, debugFrame, j, i)
      {
        if i < y {
          assert PixelDone(cam, o, draws, before, debugBefore, j, i);
          assert frame[i] == before[i] && debugFrame[i] == debugBefore[i];
        }
      }
      visits := visits + rowVisits;
      y := y + 1;
    }
    forall x, y | 0 <= x < width && 0 <= y < height
      ensures frame[y][x] == PixelColor(cam, o, x, y, draws(x, y))
      ensures debugFrame[y][x] == DebugColor(x, y, width, height)
    {
      assert PixelDone(cam, o, draws, frame, debugFrame, x, y);
    }
  }
}

=== FILE: vectors.dfy ===
/** Three-component vectors, colours and rays. The vector and ray headers of
    the renderer are not part of this model; the operations below are the
    usual component-wise definitions the camera code relies on. Normalisation
    (`unitVector`) needs a square root and is supplied by callers as an oracle. */
module Vectors {

  import Numeric

  datatype Vec3 = Vec3(x: real, y: real, z: real)

  /** Colours are vectors whose components are the red, green and blue channels. */
  type Color = Vec3

  /** The vector normalisation of the renderer, supplied by the caller. */
  type Normalizer = Vec3 -> Vec3

  const Zero: Vec3 := Vec3(0.0, 0.0, 0.0)
  const Black: Color := Zero
  const White: Color := Vec3(1.0, 1.0, 1.0)

  function Add(a: Vec3, b: Vec3): Vec3 {
    Vec3(a.x + b.x, a.y + b.y, a.z + b.z)
  }

  function Sub(a: Vec3, b: Vec3): Vec3 {
    Vec3(a.x - b.x, a.y - b.y, a.z - b.z)
  }

  function Neg(a: Vec3): Vec3 {
    Vec3(-a.x, -a.y, -a.z)
  }

  /** Scalar multiple `k * a`; division by a scalar is `Scale(1/k, a)`. */
  function Scale(k: real, a: Vec3): Vec3 {
    Vec3(k * a.x, k * a.y, k * a.z)
  }

  /** Component-wise product, used to attenuate colours. */
  function Mul(a: Vec3, b: Vec3): Vec3 {
    Vec3(a.x * b.x, a.y * b.y, a.z * b.z)
  }

  function Cross(a: Vec3, b: Vec3): Vec3 {
    Vec3(a.y * b.z - a.z * b.y, a.z * b.x - a.x * b.z, a.x * b.y - a.y * b.x)
  }

  /** Every channel lies in [0, 1]. */
  predicate InUnitCube(c: Color) {
    0.0 <= c.x <= 1.0 && 0.0 <= c.y <= 1.0 && 0.0 <= c.z <= 1.0
  }

  /** A ray: an origin point and a direction vector. */
  datatype Ray = Ray(origin: Vec3, direction: Vec3) {

    /** The point reached after travelling parameter t along the ray. */
    function At(t: real): Vec3 {
      Add(origin, Scale(t, direction))
    }
  }

  /** Attenuating twice is attenuating by the product: the law that lets
      the recursive integrator carry a running throughput. */
  lemma MulAssociative(a: Vec3, b: Vec3, c: Vec3)
    ensures Mul(Mul(a, b), c) == Mul(a, Mul(b, c))
  {
    assert (a.x * b.x) * c.x == a.x * (b.x * c.x);
    assert (a.y * b.y) * c.y == a.y * (b.y * c.y);
    assert (a.z * b.z) * c.z == a.z * (b.z * c.z);
  }

  /** A product of two unit-cube colours stays in the unit cube. */
  lemma MulInUnitCube(a: Color, b: Color)
    requires InUnitCube(a) && InUnitCube(b)
    ensures InUnitCube(Mul(a, b))
  {
    UnitProduct(a.x, b.x);
    UnitProduct(a.y, b.y);
    UnitProduct(a.z, b.z);
  }

  lemma UnitProduct(p: real, q: real)
    requires 0.0 <= p <= 1.0 && 0.0 <= q <= 1.0
    ensures 0.0 <= p * q <= 1.0
  {
    Numeric.ProductNonNegative(p, q);
    Numeric.ProductNonNegative(p, 1.0 - q);
    Numeric.ProductNonNegative(1.0 - p, q);
  }
}

=== FILE: wrappers.dfy ===
/** The optional value used wherever the modelled code may produce no result:
    a missed hit, an absorbed ray, a non-finite debug channel, a malformed line. */
module Wrappers {

  datatype Option<+T> = None | Some(value: T)
}
